=== FILE: README.md ===
# Bitbucket authentication for SonarQube — a Dafny model

This project models the login logic of the SonarQube Bitbucket plugin. The plugin uses
the OAuth2 authorization-code grant of section 4.1 of RFC 6749. It has three parts.

- **Identity provider** (`identity_provider.dfy`, module `IdentityProvider`).
  - `Init` checks the enablement gate, builds the OAuth service with the `account`
    scope, and redirects the browser once.
  - `Callback` runs one fixed sequence: the gate, the verifier check on the `code`
    parameter, the token exchange, the user profile
    (a hard failure), the emails (a soft failure that gives no emails), the optional
    team restriction (fail-closed), then `authenticate` and `redirectToRequestedPage`.
  - Bitbucket's HTTP replies enter as values (`Replies`). Each reply has a success
    flag, a code, a body and the already-parsed record.
  - The callback context is a class. SonarQube's context exposes methods, not fields.
    The model reduces `getCallbackUrl` and `getRequest().getParameter("code")` to the
    constants `callbackUrl` and `code`. The class records the effects of `authenticate`,
    `redirectToRequestedPage` and `verifyCsrfState` in fields (`userIdentity`,
    `redirectedToRequestedPage`, `csrfStateVerified`), as a recording test context does.
    `getResponse` is not used by the provider. The class also keeps one ordered log,
    `calls`, of the requests sent to Bitbucket and the calls made on the context.
  - `CallbackRun` is the specification of `Callback`: the method is proved to produce
    exactly the log and outcome of this pure function. The lemmas in `callback_properties.dfy` (module `CallbackProperties`)
    state the ordering and gating properties about that function.
- **Settings** (`bitbucket_settings.dfy`, module `BitbucketSettings`). Each accessor is
  a function of a `Settings` value, so no accessor can change the settings. The value
  holds the configured single values and multi-valued properties. The defaults come
  from the plugin's property definitions.
- **Team record** (`gson.dfy`, module `Gson`). `GsonTeam` is an immutable datatype with
  an optional `userName` and an optional `displayName`. The module also gives the
  record's JSON field mapping.

`format.dfy` renders the HTTP code in the profile error message the way Java's
`String.format("%s", code)` does. `wrappers.dfy` holds `Option`, `Result` and `Outcome`,
which stand for Java's `null` and exceptions.

Some facts about the code that the model keeps:
- The provider does not check the `code` query parameter itself. It wraps it in the OAuth
  library's `Verifier`, whose constructor rejects a null value with an
  `IllegalArgumentException` ("Must provide a valid string as verifier"). So an absent
  code fails the callback after the enablement gate and before any request is sent
  (`MissingVerifier`).
- The login strategies are "Unique" and "Same as Bitbucket login".
- With an empty restriction list, the team predicate is not evaluated at all and the
  teams endpoint is not requested.
- The provider itself logs the warning for a failed teams request.

## Model

| member | source | states |
|---|---|---|
| `IdentityProvider.NewScribeBuilder` | src/main/java/org/sonarqube/auth/bitbucket/BitbucketIdentityProvider.java:162-172 | Fails with `Disabled` exactly when the provider is not enabled. Otherwise it returns a service whose key and secret are the configured credentials, with grant type `authorization_code` and the context's callback URL. |
| `IdentityProvider.AuthorizationService` | src/main/java/org/sonarqube/auth/bitbucket/BitbucketIdentityProvider.java:90-94 | The service `init` builds: the same gate, with the scope set to `account`. The key, secret, grant type and callback URL stay as `newScribeBuilder` set them. |
| `IdentityProvider.AuthError.Kind` | src/main/java/org/sonarqube/auth/bitbucket/BitbucketIdentityProvider.java:122-164 | The exception class of each error: `IllegalStateException` exactly for the disabled gate and a failed profile, `IllegalArgumentException` exactly for a missing verifier, `UnauthorizedException` exactly for the team restriction. |
| `IdentityProvider.AuthError.Message` | src/main/java/org/sonarqube/auth/bitbucket/BitbucketIdentityProvider.java:122-164 | The messages: "Bitbucket authentication is disabled"; "Can not get Bitbucket user profile. HTTP code: <code>, response: <body>"; "User <username> is not part of restricted teams"; the OAuth library's verifier message; the token exchange's own reason. |
| `IdentityProvider.CallbackRun` | src/main/java/org/sonarqube/auth/bitbucket/BitbucketIdentityProvider.java:99-114 | The specification of `Callback`. It fails with `Disabled` iff the provider is disabled. It sends nothing and calls nothing iff the provider is disabled or the code is absent. On success its last two steps are `authenticate`, with the factory's identity for the fetched user and emails, and the redirect. |
| `IdentityProvider.BitbucketIdentityProvider.constructor` | src/main/java/org/sonarqube/auth/bitbucket/BitbucketIdentityProvider.java:55-59 | Stores the settings, the identity factory and the OAuth library's authorization-URL function. |
| `IdentityProvider.BitbucketIdentityProvider.IsEnabled` | src/main/java/org/sonarqube/auth/bitbucket/BitbucketIdentityProvider.java:80-83 | True iff the enabled flag parses as true and both credentials are configured. |
| `IdentityProvider.BitbucketIdentityProvider.AllowsUsersToSignUp` | src/main/java/org/sonarqube/auth/bitbucket/BitbucketIdentityProvider.java:85-88 | Sign-up is allowed when the setting is not configured. When it is configured, sign-up is allowed iff the value parses as true. |
| `IdentityProvider.BitbucketIdentityProvider.Init` | src/main/java/org/sonarqube/auth/bitbucket/BitbucketIdentityProvider.java:90-97 | When disabled: fails with `Disabled` and does not redirect. When enabled: appends exactly one redirect, to the authorization URL of the `account`-scoped service. It has no access to the request log or to any reply, so it exchanges no token. |
| `IdentityProvider.BitbucketIdentityProvider.Callback` | src/main/java/org/sonarqube/auth/bitbucket/BitbucketIdentityProvider.java:99-114 | Its outcome and the log it appends are those of `CallbackRun`. On success, `userIdentity` is the factory's identity for the fetched user and emails, and the redirect happened. On failure, neither field changes. It never sets `csrfStateVerified`. |
| `IdentityProvider.BitbucketIdentityProvider.RequestUser` | src/main/java/org/sonarqube/auth/bitbucket/BitbucketIdentityProvider.java:116-127 | Sends one signed GET of `<apiURL>2.0/user`. It returns the parsed user iff the reply was successful. Otherwise it returns `ProfileFetchFailed` with the reply's code and body. |
| `IdentityProvider.BitbucketIdentityProvider.RequestEmails` | src/main/java/org/sonarqube/auth/bitbucket/BitbucketIdentityProvider.java:129-138 | Sends one signed GET of `<apiURL>2.0/user/emails`. It returns the parsed emails iff the reply was successful, else no emails. It has no error path. |
| `IdentityProvider.BitbucketIdentityProvider.CheckTeamRestriction` | src/main/java/org/sonarqube/auth/bitbucket/BitbucketIdentityProvider.java:140-148 | With no restriction: passes and sends nothing. With a restriction: sends the teams request once. It passes iff the user is a member of a restricted team, and otherwise fails with `NotInRestrictedTeams(username)`. |
| `IdentityProvider.BitbucketIdentityProvider.RequestTeams` | src/main/java/org/sonarqube/auth/bitbucket/BitbucketIdentityProvider.java:150-160 | Sends one signed GET of `<apiURL>2.0/teams?role=member&pagelen=100`. It returns the parsed teams iff the reply was successful, else null. |
| `IdentityProvider.AnyTeamMatches` | src/main/java/org/sonarqube/auth/bitbucket/BitbucketIdentityProvider.java:144 | True iff some team in the list has a username that is in the restriction list. A team without a username never matches. |
| `IdentityProvider.IsMemberOfRestrictedTeam` | src/main/java/org/sonarqube/auth/bitbucket/BitbucketIdentityProvider.java:144 | The negation of the denial test. It is true iff the teams reply was usable, its list is present, and some listed team is restricted. |
| `IdentityProvider.InitContext.constructor` | src/test/java/org/sonarqube/auth/bitbucket/IntegrationTest.java:265-271 | A fresh init context has the given callback URL and no redirect. |
| `IdentityProvider.InitContext.RedirectTo` | src/test/java/org/sonarqube/auth/bitbucket/IntegrationTest.java:278-281 | Records the URL after all earlier redirects. |
| `IdentityProvider.CallbackContext.constructor` | src/test/java/org/sonarqube/auth/bitbucket/IntegrationTest.java:224-232 | A fresh callback context has no identity, no redirect, no CSRF verification and an empty log. |
| `IdentityProvider.CallbackContext.Send` | src/main/java/org/sonarqube/auth/bitbucket/BitbucketIdentityProvider.java:117-119 | Appends the request to the log and changes no other field. |
| `IdentityProvider.CallbackContext.Authenticate` | src/test/java/org/sonarqube/auth/bitbucket/IntegrationTest.java:244-247 | Sets `userIdentity` to the identity, appends the call to the log, and changes nothing else. |
| `IdentityProvider.CallbackContext.RedirectToRequestedPage` | src/test/java/org/sonarqube/auth/bitbucket/IntegrationTest.java:239-242 | Sets `redirectedToRequestedPage`, appends the call to the log, and changes nothing else. |
| `IdentityProvider.CallbackContext.VerifyCsrfState` | src/test/java/org/sonarqube/auth/bitbucket/IntegrationTest.java:234-237 | Sets `csrfStateVerified`, appends the call to the log, and changes nothing else. |
| `CallbackProperties.DisabledCallbackDoesNothing` | src/main/java/org/sonarqube/auth/bitbucket/BitbucketIdentityProvider.java:162-165 | A disabled provider fails the callback with "Bitbucket authentication is disabled". It sends no request and makes no context call. |
| `CallbackProperties.MissingCodeStops` | src/main/java/org/sonarqube/auth/bitbucket/BitbucketIdentityProvider.java:103-104 | An enabled provider given no `code` parameter fails with the OAuth library's `IllegalArgumentException`. It sends no request and makes no context call. |
| `CallbackProperties.TokenFailureStops` | src/main/java/org/sonarqube/auth/bitbucket/BitbucketIdentityProvider.java:102-104 | A failed token exchange ends the callback after that single request, which carries the `code` parameter. |
| `CallbackProperties.ProfileFailureStops` | src/main/java/org/sonarqube/auth/bitbucket/BitbucketIdentityProvider.java:106-124 | An unsuccessful profile reply fails with its code and body. The log is exactly [token request, profile request]: no emails or teams request, no authenticate, no redirect. |
| `CallbackProperties.EmailsNeverDecideOutcome` | src/main/java/org/sonarqube/auth/bitbucket/BitbucketIdentityProvider.java:129-138 | Changing the emails reply changes neither the outcome nor any request sent. |
| `CallbackProperties.FailedEmailsGiveNoEmails` | src/main/java/org/sonarqube/auth/bitbucket/BitbucketIdentityProvider.java:107-112 | A failed emails request never fails the callback. Whenever the callback passes, it authenticates with the factory applied to no emails; without a team restriction it passes. |
| `CallbackProperties.UnrestrictedCallbackSendsThreeRequests` | src/test/java/org/sonarqube/auth/bitbucket/IntegrationTest.java:95-122 | Without a restriction, a callback whose profile is fetched succeeds. Its log is exactly: token, `2.0/user`, `2.0/user/emails`, authenticate, redirect. |
| `CallbackProperties.RestrictedCallbackLog` | src/main/java/org/sonarqube/auth/bitbucket/BitbucketIdentityProvider.java:104-114 | With a restriction, a callback whose profile is fetched sends token, `2.0/user`, `2.0/user/emails` and the teams request, each exactly once and in that order. On success the log then ends with authenticate and redirect; on failure it ends after the teams request. |
| `CallbackProperties.TeamsRequestedOnlyWhenRestricted` | src/main/java/org/sonarqube/auth/bitbucket/BitbucketIdentityProvider.java:141-143 | The teams endpoint is requested iff a restriction is configured and the profile was fetched. |
| `CallbackProperties.RestrictionDecides` | src/main/java/org/sonarqube/auth/bitbucket/BitbucketIdentityProvider.java:143-146 | With a restriction, the callback passes iff the teams reply succeeded, its list is present, and some team's username is restricted. Otherwise it fails with `NotInRestrictedTeams(username)`. |
| `CallbackProperties.RestrictionFailsClosed` | src/test/java/org/sonarqube/auth/bitbucket/IntegrationTest.java:172-185 | With a restriction, each of these denies access with nobody authenticated: a failed teams request, a missing list, an empty list. |
| `CallbackProperties.AuthenticatesOnceAtTheEnd` | src/main/java/org/sonarqube/auth/bitbucket/BitbucketIdentityProvider.java:109-113 | On success the last two steps are one `authenticate`, with the factory's identity, then the redirect; every step before them is a request. On failure the log holds requests only. The CSRF state is never verified. |
| `CallbackProperties.RestrictionExamples` | src/test/java/org/sonarqube/auth/bitbucket/IntegrationTest.java:140-185 | With restriction [team1, team2]: teams [team3, team2] pass; [team3] fails; an empty list fails; a missing reply fails. |
| `CallbackProperties.ProfileErrorMessageDeterminesCodeAndBody` | src/main/java/org/sonarqube/auth/bitbucket/BitbucketIdentityProvider.java:122-123 | Two profile errors with the same message have the same HTTP code and the same body. So the message carries both without loss. |
| `CallbackProperties.ProfileMessageSplits` | src/main/java/org/sonarqube/auth/bitbucket/BitbucketIdentityProvider.java:122-123 | After the fixed prefix, the profile error message is the rendered HTTP code, then ", response: ", then the body. |
| `CallbackProperties.RestrictionMessageNamesUser` | src/main/java/org/sonarqube/auth/bitbucket/BitbucketIdentityProvider.java:145 | Two restriction errors with the same message name the same user. |
| `Format.NatToString` | src/main/java/org/sonarqube/auth/bitbucket/BitbucketIdentityProvider.java:122-123 | The rendering is a non-empty string of digits with no leading zero. |
| `Format.NatToStringRoundTrip` | src/main/java/org/sonarqube/auth/bitbucket/BitbucketIdentityProvider.java:122-123 | Reading the digits back gives the number. |
| `Format.IntToString` | src/main/java/org/sonarqube/auth/bitbucket/BitbucketIdentityProvider.java:122-123 | The result is a numeral, and it starts with '-' iff the code is negative. |
| `Format.IntToStringRoundTrip` | src/main/java/org/sonarqube/auth/bitbucket/BitbucketIdentityProvider.java:122-123 | Parsing the rendered code gives back the code. |
| `Format.IntToStringInjective` | src/main/java/org/sonarqube/auth/bitbucket/BitbucketIdentityProvider.java:122-123 | Distinct codes render differently. |
| `BitbucketSettings.ClientId` | src/main/java/org/sonarqube/auth/bitbucket/BitbucketSettings.java:61-64 | Present iff the client id key is configured, and then it is the configured value. |
| `BitbucketSettings.ClientSecret` | src/main/java/org/sonarqube/auth/bitbucket/BitbucketSettings.java:66-69 | Present iff the client secret key is configured, and then it is the configured value. |
| `BitbucketSettings.IsEnabled` | src/main/java/org/sonarqube/auth/bitbucket/BitbucketSettings.java:71-73 | True iff the enabled flag is configured and parses as true, and both the client id and the client secret are configured. |
| `BitbucketSettings.AllowUsersToSignUp` | src/main/java/org/sonarqube/auth/bitbucket/BitbucketSettings.java:75-77 | Defaults to true. A configured value is parsed as a boolean. |
| `BitbucketSettings.TeamRestriction` | src/main/java/org/sonarqube/auth/bitbucket/BitbucketSettings.java:79-81 | The configured team list, or empty when none is configured. |
| `BitbucketSettings.LoginStrategy` | src/main/java/org/sonarqube/auth/bitbucket/BitbucketSettings.java:83-85 | The configured value verbatim, or "Unique" when none is configured. |
| `BitbucketSettings.WebURL` | src/main/java/org/sonarqube/auth/bitbucket/BitbucketSettings.java:87-93 | Always ends with '/'. It is `https://bitbucket.org/` when unset. A configured value is returned unchanged when it already ends with '/', and otherwise with exactly one '/' appended. |
| `BitbucketSettings.ApiURL` | src/main/java/org/sonarqube/auth/bitbucket/BitbucketSettings.java:95-101 | Always ends with '/'. It is `https://api.bitbucket.org/` when unset. A configured value is returned unchanged when it already ends with '/', and otherwise with exactly one '/' appended. |
| `BitbucketSettings.UrlWithEndingSlash` | src/main/java/org/sonarqube/auth/bitbucket/BitbucketSettings.java:103-108 | The result ends with '/' and the input is a prefix of it. It is the input itself when the input already ends with '/', and otherwise exactly one character longer. |
| `BitbucketSettings.UrlWithEndingSlashIdempotent` | src/main/java/org/sonarqube/auth/bitbucket/BitbucketSettings.java:103-108 | Normalising twice gives the same result as normalising once. |
| `Gson.EmptyTeam` | src/main/java/org/sonarqube/auth/bitbucket/GsonTeam.java:36-40 | The no-argument constructor leaves both the username and the display name absent. |
| `Gson.NewTeam` | src/main/java/org/sonarqube/auth/bitbucket/GsonTeam.java:42-53 | `getUserName` returns the given username and `getDisplayName` the given, possibly absent, display name. |
| `Gson.TeamFromJson` | src/main/java/org/sonarqube/auth/bitbucket/GsonTeam.java:30-34 | The wire field `username` becomes the username and `display_name` becomes the display name. Each is absent iff its field is. |
| `Gson.TeamToJson` | src/main/java/org/sonarqube/auth/bitbucket/GsonTeam.java:30-34 | Writes only the two wire fields, one for each present value. |
| `Gson.TeamJsonRoundTrip` | src/main/java/org/sonarqube/auth/bitbucket/GsonTeam.java:30-34 | Reading back a written team gives the same team. |
| `Gson.UnknownFieldsIgnored` | src/main/java/org/sonarqube/auth/bitbucket/GsonTeam.java:30-34 | Fields other than `username` and `display_name` do not affect the team that is read. |

## Left out

- The scribe OAuth library is not part of this model. The provider holds the library's authorization-URL construction as a function it does not interpret. The token exchange is a reply value: a token, or the library's error message. The request is logged with the service and the code it uses. Signing and `send()` are recorded as a GET of a URL with the access token. `BitbucketScribeApi` is not part of this model.
- Gson's parsing of the reply bodies is taken as done: each reply carries its parsed record. `GsonUser`, `GsonEmails` and `GsonTeams` are not part of this model, so they appear only as stand-ins with the fields the provider or `UserIdentityFactory` reads.
- `UserIdentityFactory` is not part of this model. That includes the login strategy and the choice of email. `UserIdentityFactory.create` is a function field of the provider that the model does not interpret.
- `BitbucketSettings.definitions()` is admin-console metadata. Only the default values it declares are modelled, in `DefaultValue`.
- The SonarQube settings store is not part of this model. Multi-valued properties are taken already split. `getBoolean` is modelled as `Boolean.parseBoolean` with ASCII case folding only.
- Because the store returns an empty array and never null, the null half of the restriction-list test cannot arise.
- `getKey`, `getName` and `getDisplay` are UI constants and are left out.
- `LOGGER.warn` on a failed teams request is logging and is left out.
- Servlet request and response objects are left out. Only the callback's `code` parameter and the callback URL are modelled.
- `send()` failing on the connection and `GsonUser.parse`, `GsonEmails.parse` or `GsonTeams.parse` failing on a malformed body are left out, because I/O and JSON parsing are outside the model. In the code each throws and aborts the callback, even on the emails and teams steps. `Response` cannot express either, so `CallbackProperties.EmailsNeverDecideOutcome` holds only for replies that arrive and parse.
- `IdentityProvider.NewScribeBuilder`: an empty client id or client secret is not an error in the model. It passes the enablement gate, which only checks that each is set, and the model builds a service with the empty value. In the code the OAuth library's `ServiceBuilder.apiKey` and `apiSecret` reject an empty string with an `IllegalArgumentException`, so `init` and `callback` both fail there. That library is not part of this model.
- `IdentityProvider.Response`: `isSuccessful` is an input flag. The model does not derive it from the status code, because that rule belongs to the OAuth library.
- `Gson.NewTeam`: the Java constructor also accepts a null username. The model takes a non-null one. Only the display name parameter is marked `@Nullable`; the username parameter is not.
- No concurrency: the provider reads one immutable settings value for the whole callback.

=== FILE: bitbucket_settings.dfy ===
/**
 * The Bitbucket plugin's reading of SonarQube's configuration. Every accessor
 * is a function of a `Settings` value, so none of them can change it.
 */
module BitbucketSettings {
  import opened Wrappers

  const CONSUMER_KEY := "sonar.auth.bitbucket.clientId.secured"
  const CONSUMER_SECRET := "sonar.auth.bitbucket.clientSecret.secured"
  const ENABLED := "sonar.auth.bitbucket.enabled"
  const ALLOW_USERS_TO_SIGN_UP := "sonar.auth.bitbucket.allowUsersToSignUp"
  const TEAM_RESTRICTION := "sonar.auth.bitbucket.teams"
  const API_URL := "sonar.auth.bitbucket.apiUrl"
  const DEFAULT_API_URL := "https://api.bitbucket.org/"
  const WEB_URL := "sonar.auth.bitbucket.webUrl"
  const DEFAULT_WEB_URL := "https://bitbucket.org/"
  const LOGIN_STRATEGY := "sonar.auth.bitbucket.loginStrategy"
  const LOGIN_STRATEGY_UNIQUE := "Unique"
  const LOGIN_STRATEGY_PROVIDER_LOGIN := "Same as Bitbucket login"
  const LOGIN_STRATEGY_DEFAULT_VALUE := LOGIN_STRATEGY_UNIQUE

  /**
   * The configuration store: the single values set for each key, and the
   * multi-valued properties already split into their items. A multi-valued
   * key such as the team restriction is read from `multiValues` only; an
   * entry for it in `values` is not consulted.
   */
  datatype Settings = Settings(values: map<string, string>, multiValues: map<string, seq<string>>)

  /** The default values the plugin's property definitions declare. */
  function DefaultValue(key: string): Option<string> {
    if key == ENABLED then Some("false")
    else if key == ALLOW_USERS_TO_SIGN_UP then Some("true")
    else if key == LOGIN_STRATEGY then Some(LOGIN_STRATEGY_DEFAULT_VALUE)
    else if key == API_URL then Some(DEFAULT_API_URL)
    else None
  }

  /** The store's `getString`: the value set for the key, else its declared default, else null. */
  function GetString(s: Settings, key: string): Option<string> {
    if key in s.values then Some(s.values[key]) else DefaultValue(key)
  }

  function ToLowerAscii(c: char): char {
    if 'A' <= c <= 'Z' then (c as int - 'A' as int + 'a' as int) as char else c
  }

  /** `Boolean.parseBoolean`: true exactly for "true" in any letter case. */
  predicate ParseBoolean(v: string) {
    |v| == 4 && ToLowerAscii(v[0]) == 't' && ToLowerAscii(v[1]) == 'r'
    && ToLowerAscii(v[2]) == 'u' && ToLowerAscii(v[3]) == 'e'
  }

  /** The store's `getBoolean`: false when there is no value. */
  predicate GetBoolean(s: Settings, key: string) {
    var v := GetString(s, key);
    v.Some? && ParseBoolean(v.value)
  }

  /** The store's `getStringArray`: the items, or an empty array when unset. */
  function GetStringArray(s: Settings, key: string): seq<string> {
    if key in s.multiValues then s.multiValues[key] else []
  }

  function ClientId(s: Settings): (r: Option<string>)
    ensures r.Some? <==> CONSUMER_KEY in s.values
    ensures r.Some? ==> r.value == s.values[CONSUMER_KEY]
  {
    GetString(s, CONSUMER_KEY)
  }

  function ClientSecret(s: Settings): (r: Option<string>)
    ensures r.Some? <==> CONSUMER_SECRET in s.values
    ensures r.Some? ==> r.value == s.values[CONSUMER_SECRET]
  {
    GetString(s, CONSUMER_SECRET)
  }

  /** Enabled only when switched on and both OAuth credentials are configured. */
  predicate IsEnabled(s: Settings)
    ensures IsEnabled(s) <==>
      && ENABLED in s.values && ParseBoolean(s.values[ENABLED])
      && CONSUMER_KEY in s.values
      && CONSUMER_SECRET in s.values
  {
    GetBoolean(s, ENABLED) && ClientId(s).Some? && ClientSecret(s).Some?
  }

  /** Sign-up is allowed unless configured otherwise. */
  predicate AllowUsersToSignUp(s: Settings)
    ensures ALLOW_USERS_TO_SIGN_UP !in s.values ==> AllowUsersToSignUp(s)
    ensures ALLOW_USERS_TO_SIGN_UP in s.values ==>
      (AllowUsersToSignUp(s) <==> ParseBoolean(s.values[ALLOW_USERS_TO_SIGN_UP]))
  {
    GetBoolean(s, ALLOW_USERS_TO_SIGN_UP)
  }

  /** The teams a user must belong to; empty when no restriction is configured. */
  function TeamRestriction(s: Settings): (r: seq<string>)
    ensures TEAM_RESTRICTION !in s.multiValues ==> r == []
    ensures TEAM_RESTRICTION in s.multiValues ==> r == s.multiValues[TEAM_RESTRICTION]
  {
    GetStringArray(s, TEAM_RESTRICTION)
  }

  /** The login strategy: the configured value verbatim, else "Unique". */
  function LoginStrategy(s: Settings): (r: string)
    ensures LOGIN_STRATEGY in s.values ==> r == s.values[LOGIN_STRATEGY]
    ensures LOGIN_STRATEGY !in s.values ==> r == LOGIN_STRATEGY_UNIQUE
  {
    GetString(s, LOGIN_STRATEGY).value
  }

  predicate EndsWithSlash(url: string) {
    |url| > 0 && url[|url| - 1] == '/'
  }

  /** Appends one '/' unless the URL already ends with one. */
  function UrlWithEndingSlash(url: string): (r: string)
    ensures EndsWithSlash(r)
    ensures url <= r
    ensures EndsWithSlash(url) ==> r == url
    ensures !EndsWithSlash(url) ==> |r| == |url| + 1
  {
    if !EndsWithSlash(url) then url + "/" else url
  }

  /** Normalising twice is normalising once. */
  lemma UrlWithEndingSlashIdempotent(url: string)
    ensures UrlWithEndingSlash(UrlWithEndingSlash(url)) == UrlWithEndingSlash(url)
  {
  }

  /** The web URL, "https://bitbucket.org/" unless configured, always ending with '/'. */
  function WebURL(s: Settings): (r: string)
    ensures EndsWithSlash(r)
    ensures WEB_URL !in s.values ==> r == DEFAULT_WEB_URL
    ensures WEB_URL in s.values ==> s.values[WEB_URL] <= r
    ensures WEB_URL in s.values && EndsWithSlash(s.values[WEB_URL]) ==> r == s.values[WEB_URL]
    ensures WEB_URL in s.values && !EndsWithSlash(s.values[WEB_URL]) ==> r == s.values[WEB_URL] + "/"
  {
    var url := GetString(s, WEB_URL);
    UrlWithEndingSlash(if url.None? then DEFAULT_WEB_URL else url.value)
  }

  /** The API URL, "https://api.bitbucket.org/" unless configured, always ending with '/'. */
  function ApiURL(s: Settings): (r: string)
    ensures EndsWithSlash(r)
    ensures API_URL !in s.values ==> r == DEFAULT_API_URL
    ensures API_URL in s.values ==> s.values[API_URL] <= r
    ensures API_URL in s.values && EndsWithSlash(s.values[API_URL]) ==> r == s.values[API_URL]
    ensures API_URL in s.values && !EndsWithSlash(s.values[API_URL]) ==> r == s.values[API_URL] + "/"
  {
    var url := GetString(s, API_URL);
    UrlWithEndingSlash(if url.None? then DEFAULT_API_URL else url.value)
  }
}

=== FILE: callback_properties.dfy ===
/**
 * What every callback does and does not do, stated over `CallbackRun`, the
 * value `BitbucketIdentityProvider.Callback` is proved to produce; and what the
 * error messages carry.
 */
module CallbackProperties {
  import opened Wrappers
  import opened Gson
  import BitbucketSettings
  import opened IdentityProvider
  import Format

  /** The callback got past the gate, the verifier check, the token exchange and the profile. */
  predicate ProfileFetched(settings: BitbucketSettings.Settings, code: Option<string>, replies: Replies) {
    BitbucketSettings.IsEnabled(settings) && code.Some? && replies.token.Success? && replies.user.successful
  }

  /** Some call in the log is a GET of the teams endpoint. */
  predicate RequestsTeams(calls: seq<ContextCall>, settings: BitbucketSettings.Settings) {
    exists i :: 0 <= i < |calls| && calls[i].Sent? && calls[i].request.ApiGet?
      && calls[i].request.url == IdentityProvider.TeamsUrl(settings)
  }

  /** Nothing but requests: no authentication and no redirect. */
  predicate OnlyRequests(calls: seq<ContextCall>) {
    forall i :: 0 <= i < |calls| ==> calls[i].Sent?
  }

  /** A disabled provider fails the callback before any request or context call. */
  lemma DisabledCallbackDoesNothing(
    settings: BitbucketSettings.Settings, factory: UserIdentityFactory,
    code: Option<string>, callbackUrl: string, replies: Replies)
    requires !BitbucketSettings.IsEnabled(settings)
    ensures CallbackRun(settings, factory, code, callbackUrl, replies) == Run(Fail(Disabled), [])
    ensures Disabled.Message() == "Bitbucket authentication is disabled"
  {
  }

  /**
   * An enabled provider given no authorization code fails before any request:
   * the OAuth library refuses to build the verifier.
   */
  lemma MissingCodeStops(
    settings: BitbucketSettings.Settings, factory: UserIdentityFactory,
    callbackUrl: string, replies: Replies)
    requires BitbucketSettings.IsEnabled(settings)
    ensures CallbackRun(settings, factory, None, callbackUrl, replies) == Run(Fail(MissingVerifier), [])
    ensures MissingVerifier.Kind() == IllegalArgument
  {
  }

  /** A failed token exchange ends the callback after that one request, which carries the code. */
  lemma TokenFailureStops(
    settings: BitbucketSettings.Settings, factory: UserIdentityFactory,
    code: string, callbackUrl: string, replies: Replies)
    requires BitbucketSettings.IsEnabled(settings) && replies.token.Failure?
    ensures var run := CallbackRun(settings, factory, Some(code), callbackUrl, replies);
      && run.outcome == Fail(TokenExchangeFailed(replies.token.error))
      && run.calls == [Sent(AccessTokenRequest(NewScribeBuilder(settings, callbackUrl).value, code))]
  {
  }

  /**
   * An unsuccessful profile reply aborts with its code and body: nothing is sent
   * after the profile request and nobody is authenticated.
   */
  lemma ProfileFailureStops(
    settings: BitbucketSettings.Settings, factory: UserIdentityFactory,
    code: Option<string>, callbackUrl: string, replies: Replies)
    requires BitbucketSettings.IsEnabled(settings) && code.Some?
    requires replies.token.Success? && !replies.user.successful
    ensures var run := CallbackRun(settings, factory, code, callbackUrl, replies);
      && run.outcome == Fail(ProfileFetchFailed(replies.user.code, replies.user.body))
      && run.calls == [
           Sent(AccessTokenRequest(NewScribeBuilder(settings, callbackUrl).value, code.value)),
           Sent(ApiGet(UserUrl(settings), replies.token.value))]
  {
  }

  /** The emails reply never decides the outcome, nor which requests are sent. */
  lemma EmailsNeverDecideOutcome(
    settings: BitbucketSettings.Settings, factory: UserIdentityFactory,
    code: Option<string>, callbackUrl: string, replies: Replies, otherEmails: Response<GsonEmails>)
    ensures var run := CallbackRun(settings, factory, code, callbackUrl, replies);
      var other := CallbackRun(settings, factory, code, callbackUrl, replies.(emails := otherEmails));
      && run.outcome == other.outcome
      && |run.calls| == |other.calls|
      && forall i :: 0 <= i < |run.calls| && run.calls[i].Sent? ==> other.calls[i] == run.calls[i]
  {
  }

  /**
   * A failed emails request does not fail the callback: whenever it passes it
   * authenticates with no emails, and without a team restriction it passes.
   */
  lemma FailedEmailsGiveNoEmails(
    settings: BitbucketSettings.Settings, factory: UserIdentityFactory,
    code: Option<string>, callbackUrl: string, replies: Replies)
    requires ProfileFetched(settings, code, replies) && !replies.emails.successful
    ensures var run := CallbackRun(settings, factory, code, callbackUrl, replies);
      && (run.outcome.Pass? ==> Authenticated(factory(replies.user.parsed, None)) in run.calls)
      && (|BitbucketSettings.TeamRestriction(settings)| == 0 ==> run.outcome == Pass)
  {
  }

  /**
   * Without a team restriction a callback whose profile is fetched succeeds
   * with exactly three requests (token, profile, emails), then authenticates
   * and redirects.
   */
  lemma UnrestrictedCallbackSendsThreeRequests(
    settings: BitbucketSettings.Settings, factory: UserIdentityFactory,
    code: Option<string>, callbackUrl: string, replies: Replies)
    requires ProfileFetched(settings, code, replies)
    requires BitbucketSettings.TeamRestriction(settings) == []
    ensures var run := CallbackRun(settings, factory, code, callbackUrl, replies);
      var token := replies.token.value;
      && run.outcome == Pass
      && run.calls == [
           Sent(AccessTokenRequest(NewScribeBuilder(settings, callbackUrl).value, code.value)),
           Sent(ApiGet(UserUrl(settings), token)),
           Sent(ApiGet(EmailsUrl(settings), token)),
           Authenticated(factory(replies.user.parsed, Fetched(replies.emails))),
           RedirectedToRequestedPage]
  {
  }

  /**
   * With a team restriction, a callback whose profile is fetched sends each of
   * the four requests exactly once, in order (token, profile, emails, teams).
   * On success it then authenticates and redirects; on failure it stops there.
   */
  lemma RestrictedCallbackLog(
    settings: BitbucketSettings.Settings, factory: UserIdentityFactory,
    code: Option<string>, callbackUrl: string, replies: Replies)
    requires ProfileFetched(settings, code, replies)
    requires |BitbucketSettings.TeamRestriction(settings)| > 0
    ensures var run := CallbackRun(settings, factory, code, callbackUrl, replies);
      var token := replies.token.value;
      var requests := [
        Sent(AccessTokenRequest(NewScribeBuilder(settings, callbackUrl).value, code.value)),
        Sent(ApiGet(UserUrl(settings), token)),
        Sent(ApiGet(EmailsUrl(settings), token)),
        Sent(ApiGet(TeamsUrl(settings), token))];
      && (run.outcome.Pass? ==>
            run.calls == requests + [
              Authenticated(factory(replies.user.parsed, Fetched(replies.emails))),
              RedirectedToRequestedPage])
      && (run.outcome.Fail? ==> run.calls == requests)
  {
  }

  /** The teams are requested exactly when a restriction is configured and the profile was fetched. */
  lemma TeamsRequestedOnlyWhenRestricted(
    settings: BitbucketSettings.Settings, factory: UserIdentityFactory,
    code: Option<string>, callbackUrl: string, replies: Replies)
    ensures var run := CallbackRun(settings, factory, code, callbackUrl, replies);
      RequestsTeams(run.calls, settings) <==>
        ProfileFetched(settings, code, replies) && |BitbucketSettings.TeamRestriction(settings)| > 0
  {
    var run := CallbackRun(settings, factory, code, callbackUrl, replies);
    var teamsUrl := TeamsUrl(settings);
    assert UserUrl(settings) != teamsUrl by {
      assert |UserUrl(settings)| != |teamsUrl|;
    }
    assert EmailsUrl(settings) != teamsUrl by {
      assert |EmailsUrl(settings)| != |teamsUrl|;
    }
    if ProfileFetched(settings, code, replies) && |BitbucketSettings.TeamRestriction(settings)| > 0 {
      assert run.calls[3] == Sent(ApiGet(teamsUrl, replies.token.value));
    }
  }

  /**
   * With a restriction, the callback passes exactly when the teams reply was
   * successful, carried a list, and some team of it is restricted; otherwise it
   * is refused, naming the user.
   */
  lemma RestrictionDecides(
    settings: BitbucketSettings.Settings, factory: UserIdentityFactory,
    code: Option<string>, callbackUrl: string, replies: Replies)
    requires ProfileFetched(settings, code, replies)
    requires |BitbucketSettings.TeamRestriction(settings)| > 0
    ensures var run := CallbackRun(settings, factory, code, callbackUrl, replies);
      var restriction := BitbucketSettings.TeamRestriction(settings);
      && (run.outcome.Pass? <==>
            && replies.teams.successful && replies.teams.parsed.teams.Some?
            && exists i :: 0 <= i < |replies.teams.parsed.teams.value|
                 && TeamMatches(replies.teams.parsed.teams.value[i], restriction))
      && (run.outcome.Fail? ==> run.outcome.error == NotInRestrictedTeams(replies.user.parsed.username))
  {
  }

  /** A failed teams request, a missing list and an empty list all deny access. */
  lemma RestrictionFailsClosed(
    settings: BitbucketSettings.Settings, factory: UserIdentityFactory,
    code: Option<string>, callbackUrl: string, replies: Replies)
    requires ProfileFetched(settings, code, replies)
    requires |BitbucketSettings.TeamRestriction(settings)| > 0
    requires !replies.teams.successful || replies.teams.parsed.teams == None || replies.teams.parsed.teams == Some([])
    ensures var run := CallbackRun(settings, factory, code, callbackUrl, replies);
      && run.outcome == Fail(NotInRestrictedTeams(replies.user.parsed.username))
      && OnlyRequests(run.calls)
  {
  }

  /**
   * A callback succeeds exactly when it authenticates. On success the last two
   * steps are the one authentication, with the factory's identity, and the
   * redirect, after every request; on failure the log holds requests only.
   * The CSRF state is never verified.
   */
  lemma AuthenticatesOnceAtTheEnd(
    settings: BitbucketSettings.Settings, factory: UserIdentityFactory,
    code: Option<string>, callbackUrl: string, replies: Replies)
    ensures var run := CallbackRun(settings, factory, code, callbackUrl, replies);
      var calls := run.calls;
      && (run.outcome.Pass? ==>
            && ProfileFetched(settings, code, replies)
            && |calls| >= 2
            && calls[|calls| - 2] == Authenticated(factory(replies.user.parsed, Fetched(replies.emails)))
            && calls[|calls| - 1] == RedirectedToRequestedPage
            && OnlyRequests(calls[..|calls| - 2]))
      && (run.outcome.Fail? ==> OnlyRequests(calls))
      && CsrfStateVerified !in calls
  {
  }

  /** The examples of the restriction: membership of one listed team suffices; none, or no teams, does not. */
  lemma RestrictionExamples()
    ensures IsMemberOfRestrictedTeam(
      Some(GsonTeams(Some([NewTeam("team3", None), NewTeam("team2", None)]))), ["team1", "team2"])
    ensures !IsMemberOfRestrictedTeam(Some(GsonTeams(Some([NewTeam("team3", None)]))), ["team1", "team2"])
    ensures !IsMemberOfRestrictedTeam(Some(GsonTeams(Some([]))), ["team1", "team2"])
    ensures !IsMemberOfRestrictedTeam(None, ["team1", "team2"])
  {
  }

  /** The profile error message determines the HTTP code and the body it reports. */
  lemma ProfileErrorMessageDeterminesCodeAndBody(code1: int, body1: string, code2: int, body2: string)
    requires ProfileFetchFailed(code1, body1).Message() == ProfileFetchFailed(code2, body2).Message()
    ensures code1 == code2 && body1 == body2
  {
    var separator := ", response: ";
    var n1, n2 := Format.IntToString(code1), Format.IntToString(code2);
    var rest1, rest2 := separator + body1, separator + body2;
    ProfileMessageSplits(code1, body1);
    ProfileMessageSplits(code2, body2);
    NumeralBeforeComma(n1, rest1, n2, rest2);
    Format.IntToStringInjective(code1, code2);
    assert body1 == rest1[|separator|..] && body2 == rest2[|separator|..];
  }

  /** The profile error message with its fixed prefix taken off: the numeral, then the separator and the body. */
  lemma ProfileMessageSplits(code: int, body: string)
    ensures var prefix := "Can not get Bitbucket user profile. HTTP code: ";
      var m := ProfileFetchFailed(code, body).Message();
      |m| >= |prefix| && m[|prefix|..] == Format.IntToString(code) + (", response: " + body)
  {
    var prefix, separator := "Can not get Bitbucket user profile. HTTP code: ", ", response: ";
    var n := Format.IntToString(code);
    var m := ProfileFetchFailed(code, body).Message();
    assert m == prefix + n + separator + body;
    assert prefix + n + separator + body == prefix + (n + (separator + body));
    assert (prefix + (n + (separator + body)))[|prefix|..] == n + (separator + body);
  }

  /** A numeral followed by a comma: the first comma marks where the numeral ends. */
  lemma NumeralBeforeComma(n1: string, rest1: string, n2: string, rest2: string)
    requires Format.IsNumeral(n1) && Format.IsNumeral(n2)
    requires |rest1| > 0 && rest1[0] == ',' && |rest2| > 0 && rest2[0] == ','
    requires n1 + rest1 == n2 + rest2
    ensures n1 == n2 && rest1 == rest2
  {
    assert (n1 + rest1)[|n1|] == ',' && (n2 + rest2)[|n2|] == ',';
    assert |n1| == |n2|;
    assert n1 == (n1 + rest1)[..|n1|] && n2 == (n2 + rest2)[..|n2|];
    assert rest1 == (n1 + rest1)[|n1|..] && rest2 == (n2 + rest2)[|n2|..];
  }

  /** The restriction error message names the user, and determines it. */
  lemma RestrictionMessageNamesUser(username1: string, username2: string)
    requires NotInRestrictedTeams(username1).Message() == NotInRestrictedTeams(username2).Message()
    ensures username1 == username2
  {
    var prefix, suffix := "User ", " is not part of restricted teams";
    var m1, m2 := NotInRestrictedTeams(username1).Message(), NotInRestrictedTeams(username2).Message();
    assert |username1| == |username2|;
    assert username1 == m1[|prefix|..|prefix| + |username1|];
    assert username2 == m2[|prefix|..|prefix| + |username2|];
  }
}

=== FILE: format.dfy ===
/**
 * Decimal rendering of integers, as `String.format("%s", int)` writes the HTTP
 * code into the profile error message, and the reading back that shows nothing
 * of the code is lost.
 */
module Format {

  predicate IsDigit(c: char) {
    '0' <= c <= '9'
  }

  function DigitChar(d: nat): (c: char)
    requires d < 10
    ensures IsDigit(c) && c as int - '0' as int == d
  {
    ('0' as int + d) as char
  }

  function DigitValue(c: char): nat
    requires IsDigit(c)
  {
    c as int - '0' as int
  }

  predicate AllDigits(s: string) {
    forall i :: 0 <= i < |s| ==> IsDigit(s[i])
  }

  /** Decimal digits of `n`, most significant first, without leading zeros. */
  function NatToString(n: nat): (s: string)
    ensures |s| >= 1 && AllDigits(s)
    ensures s[0] == '0' ==> n == 0
    decreases n
  {
    if n < 10 then [DigitChar(n)] else NatToString(n / 10) + [DigitChar(n % 10)]
  }

  /** The number a string of decimal digits denotes. */
  function DigitsValue(s: string): nat
    requires AllDigits(s)
  {
    if |s| == 0 then 0 else DigitsValue(s[..|s| - 1]) * 10 + DigitValue(s[|s| - 1])
  }

  lemma {:induction false} NatToStringRoundTrip(n: nat)
    ensures DigitsValue(NatToString(n)) == n
    decreases n
  {
    if n >= 10 {
      NatToStringRoundTrip(n / 10);
      var s := NatToString(n);
      assert s[..|s| - 1] == NatToString(n / 10);
    }
  }

  /** An optional minus sign followed by at least one digit. */
  predicate IsNumeral(s: string) {
    |s| >= 1 &&
    (forall i :: 1 <= i < |s| ==> IsDigit(s[i])) &&
    (IsDigit(s[0]) || (s[0] == '-' && |s| >= 2))
  }

  /** `Integer.toString(x)`: a minus sign for negative values, then the digits of |x|. */
  function IntToString(x: int): (s: string)
    ensures IsNumeral(s)
    ensures s[0] == '-' <==> x < 0
  {
    if x < 0 then "-" + NatToString(-x) else NatToString(x)
  }

  function ParseInt(s: string): int
    requires IsNumeral(s)
  {
    if s[0] == '-' then
      assert AllDigits(s[1..]);
      var magnitude: int := DigitsValue(s[1..]);
      -magnitude
    else
      assert AllDigits(s);
      DigitsValue(s)
  }

  /** The rendering loses nothing: the integer can be read back from it. */
  lemma IntToStringRoundTrip(x: int)
    ensures ParseInt(IntToString(x)) == x
  {
    if x < 0 {
      assert IntToString(x)[1..] == NatToString(-x);
      NatToStringRoundTrip(-x);
    } else {
      NatToStringRoundTrip(x);
    }
  }

  /** Distinct integers render as distinct strings. */
  lemma IntToStringInjective(x: int, y: int)
    requires IntToString(x) == IntToString(y)
    ensures x == y
  {
    IntToStringRoundTrip(x);
    IntToStringRoundTrip(y);
  }
}

=== FILE: gson.dfy ===
/**
 * The records Gson fills from Bitbucket's JSON replies. `GsonTeam` is modelled
 * field by field; `GsonUser`, `GsonEmails` and `GsonTeams` are stand-ins that
 * carry only what the identity provider or `UserIdentityFactory` reads from
 * them.
 */
module Gson {
  import opened Wrappers

  /** Wire names of the two team fields (Gson's `@SerializedName`). */
  const USERNAME_FIELD := "username"
  const DISPLAY_NAME_FIELD := "display_name"

  /**
   * One team of the user. Java's `null` for either field is `None`; the record
   * has no setters, so a value of this immutable datatype is the whole story.
   */
  datatype GsonTeam = GsonTeam(userName: Option<string>, displayName: Option<string>)
  {
    function GetUserName(): Option<string> {
      userName
    }

    function GetDisplayName(): Option<string> {
      displayName
    }
  }

  /** `new GsonTeam()`, the constructor Gson calls before it sets any field. */
  function EmptyTeam(): (t: GsonTeam)
    ensures t.GetUserName() == None && t.GetDisplayName() == None
  {
    GsonTeam(None, None)
  }

  /** `new GsonTeam(username, displayName)`; the display name is nullable. */
  function NewTeam(username: string, displayName: Option<string>): (t: GsonTeam)
    ensures t.GetUserName() == Some(username)
    ensures t.GetDisplayName() == displayName
  {
    GsonTeam(Some(username), displayName)
  }

  /** A JSON object with string-valued fields; a missing or null field is not a key. */
  type JsonObject = map<string, string>

  function FieldValue(json: JsonObject, name: string): Option<string> {
    if name in json then Some(json[name]) else None
  }

  /**
   * How Gson binds one team object: `username` to the identifier and
   * `display_name` to the display name; any other field is ignored.
   */
  function TeamFromJson(json: JsonObject): (t: GsonTeam)
    ensures t.GetUserName().Some? <==> USERNAME_FIELD in json
    ensures t.GetUserName().Some? ==> t.GetUserName().value == json[USERNAME_FIELD]
    ensures t.GetDisplayName().Some? <==> DISPLAY_NAME_FIELD in json
    ensures t.GetDisplayName().Some? ==> t.GetDisplayName().value == json[DISPLAY_NAME_FIELD]
  {
    GsonTeam(FieldValue(json, USERNAME_FIELD), FieldValue(json, DISPLAY_NAME_FIELD))
  }

  /** How Gson writes a team: one field per non-null Java field, under its wire name. */
  function TeamToJson(t: GsonTeam): (json: JsonObject)
    ensures json.Keys <= {USERNAME_FIELD, DISPLAY_NAME_FIELD}
    ensures USERNAME_FIELD in json <==> t.userName.Some?
    ensures DISPLAY_NAME_FIELD in json <==> t.displayName.Some?
  {
    var withName: JsonObject := if t.userName.Some? then map[USERNAME_FIELD := t.userName.value] else map[];
    if t.displayName.Some? then withName[DISPLAY_NAME_FIELD := t.displayName.value] else withName
  }

  /** Writing a team and reading it back gives the same team. */
  lemma TeamJsonRoundTrip(t: GsonTeam)
    ensures TeamFromJson(TeamToJson(t)) == t
  {
  }

  /** Fields other than the two wire names do not change the team that is read. */
  lemma UnknownFieldsIgnored(json: JsonObject, name: string, value: string)
    requires name != USERNAME_FIELD && name != DISPLAY_NAME_FIELD
    ensures TeamFromJson(json[name := value]) == TeamFromJson(json)
  {
  }

  /** Stand-in for `GsonUser` (not part of this model): the profile of the authenticated user. */
  datatype GsonUser = GsonUser(username: string, displayName: Option<string>)

  /** Stand-in for one entry of `GsonEmails` (not part of this model). */
  datatype GsonEmail = GsonEmail(email: string, isPrimary: bool, active: bool)

  /** Stand-in for `GsonEmails` (not part of this model). */
  datatype GsonEmails = GsonEmails(values: seq<GsonEmail>)

  /** Stand-in for `GsonTeams` (not part of this model): `getTeams()` may be null. */
  datatype GsonTeams = GsonTeams(teams: Option<seq<GsonTeam>>)
}

=== FILE: identity_provider.dfy ===
/**
 * The Bitbucket OAuth2 identity provider: the authorization-code login of
 * section 4.1 of RFC 6749, driven through SonarQube's init and callback
 * contexts. HTTP replies and the OAuth library's work enter as values.
 */
module IdentityProvider {
  import opened Wrappers
  import opened Gson
  import BitbucketSettings
  import Format

  const REQUIRED_SCOPE := "account"
  const GRANT_TYPE := "authorization_code"
  const USER_PATH := "2.0/user"
  const EMAILS_PATH := "2.0/user/emails"
  const TEAMS_PATH := "2.0/teams?role=member&pagelen=100"

  /** One HTTP reply: its success flag, status code, body, and the body as Gson parses it. */
  datatype Response<T> = Response(successful: bool, code: int, body: string, parsed: T)

  /** What SonarQube's `UserIdentity` holds: login, name and optional email. */
  datatype UserIdentity = UserIdentity(login: string, name: string, email: Option<string>)

  /** `UserIdentityFactory.create` (not part of this model), as an uninterpreted function. */
  type UserIdentityFactory = (GsonUser, Option<GsonEmails>) -> UserIdentity

  /** The OAuth service the scribe builder configures. */
  datatype ServiceConfig = ServiceConfig(
    apiKey: string, apiSecret: string, grantType: string, callback: string, scope: Option<string>)

  datatype ErrorKind = IllegalState | IllegalArgument | Unauthorized | OAuthFailure

  /** The exceptions `init` and `callback` throw. */
  datatype AuthError =
    | Disabled
    | MissingVerifier
    | TokenExchangeFailed(reason: string)
    | ProfileFetchFailed(code: int, body: string)
    | NotInRestrictedTeams(username: string)
  {
    /**
     * The Java exception class: IllegalStateException, IllegalArgumentException
     * (the OAuth library's check of the verifier), UnauthorizedException, or
     * the OAuth library's own.
     */
    function Kind(): (k: ErrorKind)
      ensures k == Unauthorized <==> NotInRestrictedTeams?
      ensures k == IllegalState <==> Disabled? || ProfileFetchFailed?
      ensures k == IllegalArgument <==> MissingVerifier?
    {
      match this
      case Disabled => IllegalState
      case MissingVerifier => IllegalArgument
      case TokenExchangeFailed(_) => OAuthFailure
      case ProfileFetchFailed(_, _) => IllegalState
      case NotInRestrictedTeams(_) => Unauthorized
    }

    /** The exception message; the verifier message is the OAuth library's own. */
    function Message(): (m: string)
      ensures Disabled? ==> m == "Bitbucket authentication is disabled"
      ensures ProfileFetchFailed? ==>
        m == "Can not get Bitbucket user profile. HTTP code: " + Format.IntToString(code) + ", response: " + body
      ensures NotInRestrictedTeams? ==> m == "User " + username + " is not part of restricted teams"
      ensures TokenExchangeFailed? ==> m == reason
      ensures MissingVerifier? ==> m == "Must provide a valid string as verifier"
    {
      match this
      case Disabled => "Bitbucket authentication is disabled"
      case MissingVerifier => "Must provide a valid string as verifier"
      case TokenExchangeFailed(reason) => reason
      case ProfileFetchFailed(code, body) =>
        "Can not get Bitbucket user profile. HTTP code: " + Format.IntToString(code) + ", response: " + body
      case NotInRestrictedTeams(username) => "User " + username + " is not part of restricted teams"
    }
  }

  /** A request sent to Bitbucket: the token exchange, or a GET signed with the access token. */
  datatype SentRequest =
    | AccessTokenRequest(service: ServiceConfig, code: string)
    | ApiGet(url: string, accessToken: string)

  /** One step of a callback as the outside observes it, in order. */
  datatype ContextCall =
    | Sent(request: SentRequest)
    | Authenticated(identity: UserIdentity)
    | RedirectedToRequestedPage
    | CsrfStateVerified

  /**
   * Bitbucket's answers during one callback: the access token or the OAuth
   * library's error message, and the replies of the three API endpoints.
   */
  datatype Replies = Replies(
    token: Result<string, string>,
    user: Response<GsonUser>,
    emails: Response<GsonEmails>,
    teams: Response<GsonTeams>)

  /** The outcome of a callback and everything it did, in order. */
  datatype Run = Run(outcome: Outcome<AuthError>, calls: seq<ContextCall>)

  /** The parsed body of a successful reply; null otherwise. */
  function Fetched<T>(reply: Response<T>): Option<T> {
    if reply.successful then Some(reply.parsed) else None
  }

  function UserUrl(settings: BitbucketSettings.Settings): string {
    BitbucketSettings.ApiURL(settings) + USER_PATH
  }

  function EmailsUrl(settings: BitbucketSettings.Settings): string {
    BitbucketSettings.ApiURL(settings) + EMAILS_PATH
  }

  function TeamsUrl(settings: BitbucketSettings.Settings): string {
    BitbucketSettings.ApiURL(settings) + TEAMS_PATH
  }

  /** The enablement gate and service builder both entry points go through. */
  function NewScribeBuilder(settings: BitbucketSettings.Settings, callbackUrl: string): (r: Result<ServiceConfig, AuthError>)
    ensures r.Failure? <==> !BitbucketSettings.IsEnabled(settings)
    ensures r.Failure? ==> r.error == Disabled
    ensures r.Success? ==>
      && r.value.apiKey == settings.values[BitbucketSettings.CONSUMER_KEY]
      && r.value.apiSecret == settings.values[BitbucketSettings.CONSUMER_SECRET]
      && r.value.grantType == GRANT_TYPE
      && r.value.callback == callbackUrl
      && r.value.scope == None
  {
    if !BitbucketSettings.IsEnabled(settings) then Failure(Disabled)
    else Success(ServiceConfig(
      BitbucketSettings.ClientId(settings).value, BitbucketSettings.ClientSecret(settings).value,
      GRANT_TYPE, callbackUrl, None))
  }

  /** The service `init` builds: the common one with the `account` scope. */
  function AuthorizationService(settings: BitbucketSettings.Settings, callbackUrl: string): (r: Result<ServiceConfig, AuthError>)
    ensures r.Failure? <==> !BitbucketSettings.IsEnabled(settings)
    ensures r.Failure? ==> r.error == Disabled
    ensures r.Success? ==>
      && r.value.scope == Some(REQUIRED_SCOPE)
      && r.value.apiKey == settings.values[BitbucketSettings.CONSUMER_KEY]
      && r.value.apiSecret == settings.values[BitbucketSettings.CONSUMER_SECRET]
      && r.value.grantType == GRANT_TYPE
      && r.value.callback == callbackUrl
  {
    var builder := NewScribeBuilder(settings, callbackUrl);
    if builder.Failure? then builder else Success(builder.value.(scope := Some(REQUIRED_SCOPE)))
  }

  /** A team counts when its username is one of the restricted teams. */
  predicate TeamMatches(team: GsonTeam, restriction: seq<string>) {
    team.GetUserName().Some? && team.GetUserName().value in restriction
  }

  /** `anyMatch` over the teams: some team's username is in the restriction list. */
  function AnyTeamMatches(teams: seq<GsonTeam>, restriction: seq<string>): (r: bool)
    ensures r <==> exists i :: 0 <= i < |teams| && TeamMatches(teams[i], restriction)
  {
    if teams == [] then false
    else if TeamMatches(teams[0], restriction) then true
    else
      var rest := AnyTeamMatches(teams[1..], restriction);
      assert forall i :: 1 <= i < |teams| ==> teams[i] == teams[1..][i - 1];
      rest
  }

  /**
   * The negation of the denial test of the team restriction: the teams reply
   * was usable, its list present, and some team in it is restricted.
   */
  predicate IsMemberOfRestrictedTeam(userTeams: Option<GsonTeams>, restriction: seq<string>)
    ensures IsMemberOfRestrictedTeam(userTeams, restriction) <==>
      && userTeams.Some? && userTeams.value.teams.Some?
      && exists i :: 0 <= i < |userTeams.value.teams.value|
           && TeamMatches(userTeams.value.teams.value[i], restriction)
  {
    userTeams.Some? && userTeams.value.teams.Some? && AnyTeamMatches(userTeams.value.teams.value, restriction)
  }

  /**
   * What one `callback` does, as a value; the specification of
   * `BitbucketIdentityProvider.Callback`. The gate, the verifier check, the
   * token exchange, the profile (a hard failure), the emails (a soft failure),
   * the team restriction when one is configured, then authentication and the
   * redirect.
   */
  function CallbackRun(
    settings: BitbucketSettings.Settings, factory: UserIdentityFactory,
    code: Option<string>, callbackUrl: string, replies: Replies): (r: Run)
    ensures r.outcome == Fail(Disabled) <==> !BitbucketSettings.IsEnabled(settings)
    ensures r.calls == [] <==> !BitbucketSettings.IsEnabled(settings) || code.None?
    ensures r.outcome.Pass? ==>
      && |r.calls| >= 2
      && r.calls[|r.calls| - 2] == Authenticated(factory(replies.user.parsed, Fetched(replies.emails)))
      && r.calls[|r.calls| - 1] == RedirectedToRequestedPage
  {
    var scribe := NewScribeBuilder(settings, callbackUrl);
    if scribe.Failure? then Run(Fail(scribe.error), [])
    else if code.None? then Run(Fail(MissingVerifier), [])
    else
      var tokenCalls := [Sent(AccessTokenRequest(scribe.value, code.value))];
      if replies.token.Failure? then Run(Fail(TokenExchangeFailed(replies.token.error)), tokenCalls)
      else
        var token := replies.token.value;
        var userCalls := tokenCalls + [Sent(ApiGet(UserUrl(settings), token))];
        if !replies.user.successful then
          Run(Fail(ProfileFetchFailed(replies.user.code, replies.user.body)), userCalls)
        else
          var user := replies.user.parsed;
          var emailCalls := userCalls + [Sent(ApiGet(EmailsUrl(settings), token))];
          var restriction := BitbucketSettings.TeamRestriction(settings);
          if |restriction| == 0 then
            Run(Pass, emailCalls + [Authenticated(factory(user, Fetched(replies.emails))), RedirectedToRequestedPage])
          else
            var teamCalls := emailCalls + [Sent(ApiGet(TeamsUrl(settings), token))];
            if !IsMemberOfRestrictedTeam(Fetched(replies.teams), restriction) then
              Run(Fail(NotInRestrictedTeams(user.username)), teamCalls)
            else
              Run(Pass, teamCalls + [Authenticated(factory(user, Fetched(replies.emails))), RedirectedToRequestedPage])
  }

  /** The context of the first step: where the browser is sent. */
  class InitContext {
    const callbackUrl: string
    /** Every URL passed to `redirectTo`, in order. */
    var redirects: seq<string>

    constructor (callbackUrl: string)
      ensures this.callbackUrl == callbackUrl && redirects == []
    {
      this.callbackUrl := callbackUrl;
      redirects := [];
    }

    method RedirectTo(url: string)
      modifies this
      ensures redirects == old(redirects) + [url]
    {
      redirects := redirects + [url];
    }
  }

  /**
   * The context of the second step. SonarQube's context exposes methods, not
   * fields: `getCallbackUrl` and the request's `code` parameter become the
   * constants here, and the variable fields record the effects of
   * `authenticate`, `redirectToRequestedPage` and `verifyCsrfState`, as a
   * recording test context does. `calls` records, in order, the requests sent
   * to Bitbucket and the calls made on the context.
   */
  class CallbackContext {
    const callbackUrl: string
    /** The `code` query parameter of the callback request, if any. */
    const code: Option<string>
    var userIdentity: Option<UserIdentity>
    var redirectedToRequestedPage: bool
    var csrfStateVerified: bool
    var calls: seq<ContextCall>

    constructor (callbackUrl: string, code: Option<string>)
      ensures this.callbackUrl == callbackUrl && this.code == code
      ensures userIdentity == None && !redirectedToRequestedPage && !csrfStateVerified && calls == []
    {
      this.callbackUrl := callbackUrl;
      this.code := code;
      userIdentity := None;
      redirectedToRequestedPage := false;
      csrfStateVerified := false;
      calls := [];
    }

    /** Records a request sent to Bitbucket. */
    method Send(request: SentRequest)
      modifies this
      ensures calls == old(calls) + [Sent(request)]
      ensures userIdentity == old(userIdentity)
      ensures redirectedToRequestedPage == old(redirectedToRequestedPage)
      ensures csrfStateVerified == old(csrfStateVerified)
    {
      calls := calls + [Sent(request)];
    }

    method Authenticate(identity: UserIdentity)
      modifies this
      ensures calls == old(calls) + [Authenticated(identity)]
      ensures userIdentity == Some(identity)
      ensures redirectedToRequestedPage == old(redirectedToRequestedPage)
      ensures csrfStateVerified == old(csrfStateVerified)
    {
      calls := calls + [Authenticated(identity)];
      userIdentity := Some(identity);
    }

    method RedirectToRequestedPage()
      modifies this
      ensures calls == old(calls) + [RedirectedToRequestedPage]
      ensures redirectedToRequestedPage
      ensures userIdentity == old(userIdentity)
      ensures csrfStateVerified == old(csrfStateVerified)
    {
      calls := calls + [RedirectedToRequestedPage];
      redirectedToRequestedPage := true;
    }

    method VerifyCsrfState()
      modifies this
      ensures calls == old(calls) + [CsrfStateVerified]
      ensures csrfStateVerified
      ensures userIdentity == old(userIdentity)
      ensures redirectedToRequestedPage == old(redirectedToRequestedPage)
    {
      calls := calls + [CsrfStateVerified];
      csrfStateVerified := true;
    }
  }

  class BitbucketIdentityProvider {
    const settings: BitbucketSettings.Settings
    const userIdentityFactory: UserIdentityFactory
    /** The OAuth library's authorization URL for a configured service (not part of this model). */
    const authorizationUrl: ServiceConfig -> string

    constructor (settings: BitbucketSettings.Settings, userIdentityFactory: UserIdentityFactory,
                 authorizationUrl: ServiceConfig -> string)
      ensures this.settings == settings
      ensures this.userIdentityFactory == userIdentityFactory
      ensures this.authorizationUrl == authorizationUrl
    {
      this.settings := settings;
      this.userIdentityFactory := userIdentityFactory;
      this.authorizationUrl := authorizationUrl;
    }

    predicate IsEnabled()
      ensures IsEnabled() <==>
        && BitbucketSettings.ENABLED in settings.values
        && BitbucketSettings.ParseBoolean(settings.values[BitbucketSettings.ENABLED])
        && BitbucketSettings.CONSUMER_KEY in settings.values
        && BitbucketSettings.CONSUMER_SECRET in settings.values
    {
      BitbucketSettings.IsEnabled(settings)
    }

    predicate AllowsUsersToSignUp()
      ensures BitbucketSettings.ALLOW_USERS_TO_SIGN_UP !in settings.values ==> AllowsUsersToSignUp()
      ensures BitbucketSettings.ALLOW_USERS_TO_SIGN_UP in settings.values ==>
        (AllowsUsersToSignUp() <==>
           BitbucketSettings.ParseBoolean(settings.values[BitbucketSettings.ALLOW_USERS_TO_SIGN_UP]))
    {
      BitbucketSettings.AllowUsersToSignUp(settings)
    }

    /** First step: send the browser to Bitbucket's authorization form, asking for the `account` scope. */
    method Init(context: InitContext) returns (outcome: Outcome<AuthError>)
      modifies context
      ensures outcome.Fail? <==> !IsEnabled()
      ensures outcome.Fail? ==> outcome.error == Disabled && context.redirects == old(context.redirects)
      ensures outcome.Pass? ==>
        && AuthorizationService(settings, context.callbackUrl).Success?
        && context.redirects ==
             old(context.redirects) + [authorizationUrl(AuthorizationService(settings, context.callbackUrl).value)]
    {
      var scribe := AuthorizationService(settings, context.callbackUrl);
      if scribe.Failure? {
        return Fail(scribe.error);
      }
      var url := authorizationUrl(scribe.value);
      context.RedirectTo(url);
      return Pass;
    }

    /** Second step: Bitbucket sent the browser back with an authorization code. */
    method Callback(context: CallbackContext, replies: Replies) returns (outcome: Outcome<AuthError>)
      modifies context
      ensures var run := CallbackRun(settings, userIdentityFactory, context.code, context.callbackUrl, replies);
        && outcome == run.outcome
        && context.calls == old(context.calls) + run.calls
      ensures outcome.Pass? ==>
        && context.userIdentity == Some(userIdentityFactory(replies.user.parsed, Fetched(replies.emails)))
        && context.redirectedToRequestedPage
      ensures outcome.Fail? ==>
        && context.userIdentity == old(context.userIdentity)
        && context.redirectedToRequestedPage == old(context.redirectedToRequestedPage)
      ensures context.csrfStateVerified == old(context.csrfStateVerified)
    {
      var scribe := NewScribeBuilder(settings, context.callbackUrl);
      if scribe.Failure? {
        return Fail(scribe.error);
      }
      var code := context.code;
      if code.None? {
        return Fail(MissingVerifier);
      }
      context.Send(AccessTokenRequest(scribe.value, code.value));
      if replies.token.Failure? {
        return Fail(TokenExchangeFailed(replies.token.error));
      }
      var accessToken := replies.token.value;
      var user := RequestUser(context, accessToken, replies.user);
      if user.Failure? {
        return Fail(user.error);
      }
      var emails := RequestEmails(context, accessToken, replies.emails);
      var check := CheckTeamRestriction(context, accessToken, user.value, replies.teams);
      if check.Fail? {
        return check;
      }
      var identity := userIdentityFactory(user.value, emails);
      context.Authenticate(identity);
      context.RedirectToRequestedPage();
      return Pass;
    }

    /** Fetches the profile; any unsuccessful reply is an error carrying its code and body. */
    method RequestUser(context: CallbackContext, accessToken: string, reply: Response<GsonUser>)
      returns (user: Result<GsonUser, AuthError>)
      modifies context
      ensures context.calls == old(context.calls) + [Sent(ApiGet(UserUrl(settings), accessToken))]
      ensures user.Success? <==> reply.successful
      ensures user.Success? ==> user.value == reply.parsed
      ensures user.Failure? ==> user.error == ProfileFetchFailed(reply.code, reply.body)
      ensures context.userIdentity == old(context.userIdentity)
      ensures context.redirectedToRequestedPage == old(context.redirectedToRequestedPage)
      ensures context.csrfStateVerified == old(context.csrfStateVerified)
    {
      context.Send(ApiGet(UserUrl(settings), accessToken));
      if !reply.successful {
        return Failure(ProfileFetchFailed(reply.code, reply.body));
      }
      return Success(reply.parsed);
    }

    /** Fetches the emails; an unsuccessful reply gives null, never an error. */
    method RequestEmails(context: CallbackContext, accessToken: string, reply: Response<GsonEmails>)
      returns (emails: Option<GsonEmails>)
      modifies context
      ensures context.calls == old(context.calls) + [Sent(ApiGet(EmailsUrl(settings), accessToken))]
      ensures emails.Some? <==> reply.successful
      ensures emails.Some? ==> emails.value == reply.parsed
      ensures context.userIdentity == old(context.userIdentity)
      ensures context.redirectedToRequestedPage == old(context.redirectedToRequestedPage)
      ensures context.csrfStateVerified == old(context.csrfStateVerified)
    {
      context.Send(ApiGet(EmailsUrl(settings), accessToken));
      if reply.successful {
        return Some(reply.parsed);
      }
      return None;
    }

    /** Without a restriction, passes without a request; with one, fetches the teams and fails closed. */
    method CheckTeamRestriction(context: CallbackContext, accessToken: string, user: GsonUser, reply: Response<GsonTeams>)
      returns (outcome: Outcome<AuthError>)
      modifies context
      ensures var restriction := BitbucketSettings.TeamRestriction(settings);
        && (|restriction| == 0 ==> outcome == Pass && context.calls == old(context.calls))
        && (|restriction| > 0 ==>
              && context.calls == old(context.calls) + [Sent(ApiGet(TeamsUrl(settings), accessToken))]
              && (outcome.Pass? <==> IsMemberOfRestrictedTeam(Fetched(reply), restriction))
              && (outcome.Fail? ==> outcome.error == NotInRestrictedTeams(user.username)))
      ensures context.userIdentity == old(context.userIdentity)
      ensures context.redirectedToRequestedPage == old(context.redirectedToRequestedPage)
      ensures context.csrfStateVerified == old(context.csrfStateVerified)
    {
      var restriction := BitbucketSettings.TeamRestriction(settings);
      if |restriction| > 0 {
        var userTeams := RequestTeams(context, accessToken, reply);
        if !IsMemberOfRestrictedTeam(userTeams, restriction) {
          return Fail(NotInRestrictedTeams(user.username));
        }
      }
      return Pass;
    }

    /** Fetches the user's teams; an unsuccessful reply gives null. */
    method RequestTeams(context: CallbackContext, accessToken: string, reply: Response<GsonTeams>)
      returns (teams: Option<GsonTeams>)
      modifies context
      ensures context.calls == old(context.calls) + [Sent(ApiGet(TeamsUrl(settings), accessToken))]
      ensures teams.Some? <==> reply.successful
      ensures teams.Some? ==> teams.value == reply.parsed
      ensures context.userIdentity == old(context.userIdentity)
      ensures context.redirectedToRequestedPage == old(context.redirectedToRequestedPage)
      ensures context.csrfStateVerified == old(context.csrfStateVerified)
    {
      context.Send(ApiGet(TeamsUrl(settings), accessToken));
      if reply.successful {
        return Some(reply.parsed);
      }
      return None;
    }
  }
}

=== FILE: wrappers.dfy ===
/** Absent values, results and pass/fail outcomes, standing for Java's null and exceptions. */
module Wrappers {

  /** A value that may be absent (a Java reference that may be null). */
  datatype Option<+T> = None | Some(value: T)

  /** A value, or the error that stopped its computation. */
  datatype Result<+R, +E> = Success(value: R) | Failure(error: E)

  /** Normal completion, or the error a `void` Java method throws. */
  datatype Outcome<+E> = Pass | Fail(error: E)
}
